=== FILE: README.md ===
# Trade queue and aggregation pipeline, modelled in Dafny

The system takes trade reports over HTTP, validates them, appends them to a
durable queue, and lets a single background worker fold each queued trade
into per-account statistics (number of trades, cumulative profit) exactly
once. This project models that pipeline as pure functions over immutable
state and proves its properties:

- `trade.dfy` (module `TradeModel`): the `Trade` and `Stats` records,
  validation with its fixed check order and its one side effect (the side
  is lower-cased), and the profit calculation. Prices, volumes and profits
  are Dafny `real`s.
- `repository.dfy` (module `Repository`): the database as a `Store`. It
  holds a queue of rows in insertion order, a map from account to totals,
  and the autoincrement counter. Each repository operation is a transition
  on it. It also defines the central invariant `Conserved`: every
  account's totals equal the count and profit sum of its processed rows.
- `worker.dfy` (module `Worker`): the per-trade transaction
  (commit-or-nothing), the cancellable pass over a fetched batch, and the
  polling loop, with conservation, cancellation, failure and drain
  theorems.
- `handler.dfy` (module `Handler`): the stats-path pattern, the order of
  decisions on a submission, the three routes, and the rate limiter that
  sits in front of all of them, keyed by the request's remote address (IP
  and port).
- `pipeline.dfy` (module `Pipeline`): submissions and the worker together.
  After N accepted trades of one account are drained, that account reads
  back N trades and the sum of their profits.
- `scenarios.dfy` (module `Scenarios`): the concrete cases of the
  repository's tests.
- `options.dfy` (module `Options`): the `Option` type.

Storage failures, transaction failures and cancellation are explicit
oracle parameters: a boolean `fault`, a `TxFault` naming the failing step
of a transaction, and a `cancel: nat -> bool` consulted before each trade
of a batch. The clock is an integer parameter in nanoseconds. A JSON body
is given already decoded, or as `None` when it does not decode.

The code sorts unprocessed rows by `created_at`, a timestamp with
one-second resolution (internal/db/db.go:40, 87), so rows created in the
same second come back in an unspecified order. `IsFetchResult` admits any
selection of distinct unprocessed rows of the right size, in any order.
`GetUnprocessedTrades` returns one such selection, in queue order. The
worker loop does not call it directly: each iteration's `Poll` carries the
query's answer as a function of the store and the limit, and
`AdmissibleFetch` requires every successful answer to satisfy
`IsFetchResult`. The loop, drain, pipeline and scenario theorems therefore
hold for every admissible fetch order, and `QueueOrderPollIsQuiet` shows
that the queue-order query is one such fetch.

Validation runs in the submission handler, before the insert
(internal/service/handler.go:33-38).

Two preconditions of the worker theorems are not checked by the code. The
trade must come from an existing row, because the code never checks how
many rows the mark updated. That row must still be unprocessed, because
the code does not re-read the flag inside the transaction. Both are
explicit `requires`. `ReprocessingBreaksConservation` and
`MissingRowBreaksConservation` show that each one is needed: without it,
one committed transaction breaks conservation.

## Model

| member | source | states |
|---|---|---|
| `TradeModel.Validate` | internal/model/model.go:26-54 | Accepts exactly when the account is non-empty, the symbol is six letters A-Z, volume, open and close are positive, and the lower-cased side is "buy" or "sell". A rejection names the first failing check in the fixed order, and every earlier check passes. Only `side` changes: it is lower-cased once the side check is reached, even if that check then fails. An accepted trade's side is "buy" or "sell". |
| `TradeModel.ValidateIdempotent` | internal/model/model.go:48-53 | Validating the trade that validation left behind gives the same verdict and changes nothing further. |
| `TradeModel.CalculateProfit` | internal/model/model.go:56-63 | With positive volume and close above open, profit is negative exactly for side "sell" and positive otherwise. Close equal to open gives zero profit. |
| `TradeModel.ProfitBySide` | internal/model/model.go:57-61 | A buy earns (close - open) * volume * 100000. A sell earns exactly the negation, for the same prices. |
| `TradeModel.OnlyExactSellNegates` | internal/model/model.go:59-61 | Any side other than the exact string "sell" ("SELL", "x", ...) is priced as a buy. |
| `TradeModel.ProfitLinearInVolume` | internal/model/model.go:58 | Scaling the volume by k scales the profit by k. |
| `TradeModel.ValidatedProfit` | internal/model/model.go:48-62 | After a successful validation, the submitted side in any letter case decides the sign: a sell in any case is negated, a buy is not. |
| `Repository.EnqueueTrade` | internal/db/db.go:68-80 | A failed insert yields no new state. A successful one appends exactly one unprocessed row and keeps every existing row and the statistics. The new row copies account, symbol, volume, prices and side and ignores the trade's own id. The new id is above every id handed out before, and the counter moves past it. Well-formedness is kept. |
| `Repository.EnqueuePreservesConservation` | internal/db/db.go:68-80 | An insert keeps the statistics equal to the processed rows. |
| `Repository.PendingTrades` | internal/db/db.go:82-115 | Lists every unprocessed row once: one entry per unprocessed row, each read from an unprocessed row, ids increasing when queue ids do. |
| `Repository.IsFetchResult` | internal/db/db.go:82-89 | A superset of what the query may return: exactly min(limit, number of unprocessed rows) trades, or all of them when the limit is negative, with distinct ids, each read from an unprocessed row, in any order. |
| `Repository.GetUnprocessedTrades` | internal/db/db.go:82-115 | A failed query yields nothing. A successful fetch returns min(limit, number of unprocessed rows) trades, or all of them when the limit is negative. They have distinct ids and each is read from an unprocessed row. The function only reads: it returns no new state. |
| `Repository.UpdateAccountStats` | internal/db/db.go:117-132 | With an absent account read as (0, 0), the account's totals become (trades + 1, profit + p). So an absent account starts at (1, p). The key set gains only that account, other accounts are unchanged, and every present account keeps at least one trade. |
| `Repository.MarkTradeAsProcessed` | internal/db/db.go:134-143 | Only processed flags change. The flag is raised exactly on the row with the given id and kept wherever it was already set. |
| `Repository.MarkIdempotent` | internal/db/db.go:134-143 | Marking the same id twice is the same as marking it once. |
| `Repository.MarkMissingIdIsNoOp` | internal/db/db.go:141-142 | Marking an id that no row has changes nothing (and reports no error). |
| `Repository.MarkPendingRow` | internal/db/db.go:134-143 | With unique ids, marking an unprocessed row adds exactly that row to its account's processed count and profit. The pending count drops by one and the processed count rises by one. |
| `Repository.MarkRaisesAtMostOne` | internal/db/db.go:134-143 | With unique ids, marking raises at most one flag. |
| `Repository.GetAccountStats` | internal/db/db.go:145-160 | A failed read yields nothing. A known account reads back its stored totals. An unknown account reads back `{account, 0, 0}`, not an error. The read changes nothing. |
| `Repository.ReadReportsProcessedRows` | internal/db/db.go:145-160 | On a conserved store, a read reports the number and profit sum of the account's processed rows. |
| `Repository.DrainedTotals` | internal/service/server.go:26-44 | With no row pending, an account's processed totals are the totals of all its rows. This is the step that turns a drained queue into the account's full totals. |
| `Worker.ProcessTrade` | internal/service/server.go:74-101 | Commits exactly when no step fails. A failure at begin, upsert, mark or commit leaves queue and statistics exactly as before. A commit adds one trade and the trade's profit to its account and leaves every other account alone. It raises the flag of the rows with the trade's id and changes nothing else in the queue. |
| `Worker.ProcessTradePreservesConservation` | internal/service/server.go:74-101 | Booking a trade read from an existing unprocessed row keeps every account's totals equal to its processed rows, whether the transaction commits or fails. |
| `Worker.BookingPreservesConservation` | internal/service/server.go:85-92 | Booking the unprocessed row at a position (upsert its account by one trade and its profit, mark its id) keeps every account's totals equal to its processed rows. |
| `Worker.ReprocessingBreaksConservation` | internal/service/server.go:85-92 | Booking a trade whose row is already processed breaks conservation: the trade is counted twice. So "unprocessed" is a real precondition. |
| `Worker.MissingRowBreaksConservation` | internal/db/db.go:141-142 | Booking a trade with no row breaks conservation, because the mark's rows-affected is never checked. |
| `Worker.StepKeepsOthersPending` | internal/service/server.go:74-101 | A transaction on one trade leaves the unprocessed row of any other id unprocessed. |
| `Worker.ProcessFrom` | internal/service/server.go:57-68 | The pass over a batch keeps queue length and counter. In the queue it changes only processed flags and never lowers one, and rows whose ids are not in the rest of the batch are untouched. The statistics change as `BatchPreservesConservation` states. Well-formedness is kept. |
| `Worker.ProcessBatch` | internal/service/server.go:46-71 | Returns false exactly when the fetch failed or returned nothing, and then changes nothing. Otherwise it returns true, even if trades failed or cancellation cut the batch short. |
| `Worker.BatchPreservesConservation` | internal/service/server.go:46-71 | A batch of distinct unprocessed rows keeps the statistics equal to the processed rows, for any cancellation and fault pattern. |
| `Worker.CancellationCutsBatch` | internal/service/server.go:57-61 | Once cancellation is observed at position k, the result is that of processing only the trades before k. |
| `Worker.CancelledTradesStayPending` | internal/service/server.go:57-61 | Every trade from the cancellation point on is still an unprocessed row after the batch. |
| `Worker.FailureSkipsTrade` | internal/service/server.go:62-64 | A failed trade is skipped and the pass goes on with the next trade. |
| `Worker.FailedTradeStaysPending` | internal/service/server.go:62-64 | The row of a failed trade is still unprocessed after the batch, ready for a later fetch. |
| `Worker.QueueOrderPollIsQuiet` | internal/service/server.go:46-47 | The iteration whose fetch is `GetUnprocessedTrades` in queue order, with no cancellation and no fault, is admissible and quiet. So the loop theorems' assumptions can be met. |
| `Worker.ProcessFromRaisesAtMost` | internal/service/server.go:57-68 | A pass over a batch raises at most as many flags as it has trades. |
| `Worker.BatchRaisesAtMostLimit` | internal/service/server.go:46-57 | One batch fetched with a non-negative limit processes at most that many rows. |
| `Worker.QuietPassProcessesAll` | internal/service/server.go:57-68 | With no cancellation and no fault, every trade of a batch of unprocessed rows gets processed. |
| `Worker.WorkerStep` | internal/service/server.go:26-44 | One loop iteration stops exactly when the context is done. It polls again at once exactly when the fetch, asked for up to batchSize trades, returned some. For an admissible fetch on a well-formed store, that is exactly when the fetch succeeded, something was pending and the limit is non-zero. When it stops or waits, the state is unchanged. Otherwise it changes only the queue's processed flags, and the statistics change as `StepPreservesConservation` states. |
| `Worker.StepPreservesConservation` | internal/service/server.go:26-44 | One loop iteration keeps the conservation invariant, whatever admissible order the fetch returns. |
| `Worker.Run` | internal/service/server.go:26-44 | The loop changes only the queue's processed flags and keeps well-formedness. The statistics change as `RunPreservesConservation` states. |
| `Worker.RunPreservesConservation` | internal/service/server.go:26-44 | Any number of loop iterations keeps the conservation invariant, when every iteration's fetch is admissible. |
| `Worker.QuietStepProgresses` | internal/service/server.go:46-71 | A quiet iteration with work to do processes at least one row, whatever admissible order the fetch picks. With nothing pending it changes nothing. |
| `Worker.QuietRunDrains` | internal/service/server.go:26-44 | At least as many quiet iterations with admissible fetches as there are pending rows leave no row pending. |
| `Worker.DrainReportsEveryRow` | internal/service/server.go:26-101 | After a drain with admissible fetches in any order, every account reads back the count and profit sum of all its rows: each trade is counted exactly once. |
| `Handler.ParseStatsPath` | internal/service/handler.go:23 | A match means the path is "/stats/" followed by the returned account, which is non-empty and contains no '/'. |
| `Handler.ParseStatsPathRoundTrip` | internal/service/handler.go:23 | Every non-empty account without '/' is recovered from "/stats/" + account. With `ParseStatsPath` this gives both directions of the match condition. |
| `Handler.ParseStatsPathRejects` | internal/service/handler.go:49-53 | "/stats/", "/stats/12/3" and "/stat/123" do not match. "/stats/123" yields "123". |
| `Handler.HandleGetStats` | internal/service/handler.go:48-66 | A non-matching path gives 400. A failed read gives 500. Otherwise the response is 200 with the account's totals, and an unknown account reads (0, 0). |
| `Handler.HandleTradeSubmission` | internal/service/handler.go:25-45 | An undecodable body or a trade failing any check gives 400 and leaves the queue unchanged. A failed insert gives 500 and leaves the state unchanged. The response is 200 exactly when the trade is acceptable and the insert succeeds. Then exactly the validated trade, side lower-cased, is appended unprocessed, and the statistics are untouched. |
| `Handler.SubmissionKeepsRowsValidated` | internal/service/handler.go:33-44 | Because validation runs before the insert, every queued row passes every check and has side "buy" or "sell". |
| `Handler.SubmissionPreservesConservation` | internal/service/handler.go:38-44 | A submission keeps the statistics equal to the processed rows. |
| `Handler.Admit` | internal/service/handler.go:85-97 | A request is allowed exactly when its remote address (IP and port) has no record or at least 100 ms have passed since the recorded time. Admission records the current time. Rejection leaves the table unchanged, so rejections never extend the window. Other remote addresses' entries are never touched. |
| `Handler.Dispatch` | cmd/server/main.go:48-52 | Of the three routes, only a POST /trades that is answered 200 changes the store. Stats reads, health checks and rejected submissions leave it as it was. |
| `Handler.Serve` | internal/service/handler.go:74-101 | One limiter table sits in front of every route. Its decision depends only on the remote address and the time. A rejected request gets 429 and reaches no handler. An allowed one gets exactly the routed handler's outcome. |
| `Handler.ServePreservesConservation` | cmd/server/main.go:48-56 | Any request through the server, on any route, admitted or refused, keeps the statistics equal to the processed rows. |
| `Handler.ServeKeepsRowsValidated` | cmd/server/main.go:48-56 | Any request through the server keeps every queued row valid, with side "buy" or "sell". |
| `Handler.RoutesShareWindow` | cmd/server/main.go:56 | After any admitted request, the next request from the same remote address within 100 ms is refused with 429 and changes nothing, whichever routes the two requests take. |
| `Handler.StatsReadDelaysSubmission` | cmd/server/main.go:56 | A stats read from a remote address with no record, followed within 100 ms by a submission from the same remote address, leaves the submission refused with 429 and the store unchanged. |
| `Handler.ReplayRemembersAdmissions` | internal/service/handler.go:85-97 | Under a non-decreasing clock, the table holds, for each admitted request, a time for its remote address no earlier than that request. |
| `Handler.AdmittedRequestsAreSpaced` | internal/service/handler.go:89-96 | Under a non-decreasing clock, any two admitted requests with the same remote address (IP and port) are at least 100 ms apart. |
| `Pipeline.SubmitAllQueues` | internal/service/handler.go:38-44 | Submitting acceptable trades of one account to an empty repository queues exactly those trades: row k is the k-th trade as validation left it (side lower-cased, fresh id) and is unprocessed. Their count and profit sum are the account's row totals, and the store is well-formed and conserved. |
| `Pipeline.SubmitAllRows` | internal/service/handler.go:33-44 | Submitting N acceptable trades into an empty repository gives N rows, and row k is the validated k-th trade with its own id, unprocessed. |
| `Pipeline.SubmitThenDrain` | tests/integration_test.go:87-138 | After N acceptable trades of one account are submitted and drained, the account reads N trades and the sum of their profits. |
| `Pipeline.SubmitThenDrainThenRead` | tests/integration_test.go:108-138 | The same result, read through GET /stats/{account}, comes back as a 200 response. |
| `Scenarios.ValidationCases` | tests/integration_test.go:160-219 | The valid EURUSD buy is accepted unchanged. Empty account, symbol "EUR", zero volume and side "invalid" are each rejected by their own check. |
| `Scenarios.FirstFailureWins` | internal/model/model.go:27-34 | An empty account is reported even when the symbol is also bad. |
| `Scenarios.UpperCaseSideNormalised` | internal/model/model.go:48-53 | Side "BUY" is accepted and becomes "buy". |
| `Scenarios.ProfitCases` | tests/integration_test.go:239-278 | The four tested trades give 500, 500, -500 and -500 exactly. "SELL" on a rising price is priced as a buy. |
| `Scenarios.EndToEndOneTrade` | tests/integration_test.go:87-138 | Submitting the EURUSD buy for account 123, running one quiet iteration with any admissible fetch, and reading /stats/123 gives 200 with {123, 1, 500}. |
| `Scenarios.EndToEndTwoTrades` | tests/integration_test.go:249-258 | Submitting that buy and then the tested "Sell profit" trade (open 1.1050, close 1.1000) for account 123 and running two quiet iterations with any admissible fetches gives {123, 2, 1000}. |

## Left out

- SQL text, the schema and its index, `InitDB`, prepared statements and the mechanics of `BeginTx`: these are replaced by the abstract `Store` and fault oracles.
- The order and choice of fetched rows: the code sorts by a one-second timestamp, so no strict id order is claimed. `IsFetchResult` admits any order, and the loop takes its fetch from an oracle held to `IsFetchResult`. The oldest-first choice of `ORDER BY created_at ASC LIMIT ?` (internal/db/db.go:87-88) is not modelled either: `IsFetchResult` admits any pending rows of the right number, so the worker theorems hold for more batches than the query returns, and nothing is proved about fetch fairness (that old rows are not starved).
- Commit failure is modelled as having no effect, as the rollback path intends. What the database driver does after a failed commit is not part of this model.
- Concurrency: goroutines, the limiter's mutex, the connection pool, and several workers at once. The model assumes one worker. Submissions and worker batches are whole steps that interleave but do not overlap.
- The cancellation oracle is an arbitrary `nat -> bool` rather than a signal that stays set once raised. This is strictly more general. The loop's idle wait (`time.After` or `ctx.Done`) becomes the `done` check of the next iteration.
- Floating point: NaN, infinities, rounding and the tests' 1e-9 tolerance. All arithmetic is on reals.
- `strings.ToLower` is modelled for ASCII only. No non-ASCII letter lower-cases to one of the letters of "buy" or "sell", so the set of accepted sides is the same.
- Integer widths: the int64 ids and trade counts, and the saturation of `time.Duration`, are unbounded integers here.
- HTTP details: JSON decoding (an input here), headers such as `Retry-After`, how net/http sets `RemoteAddr` from the connection (the key is an input string here), and logging.
- `Handler.Dispatch`: requests arrive already classified as one of the three routes. The mux's matching of method and path, its 404 and 405 answers and its redirects are not modelled.
- `Handler.AdmittedRequestsAreSpaced`: the limiter is keyed by `RemoteAddr` (internal/service/handler.go:82), which is the connection's IP and port. So the 100 ms spacing holds per remote address, not per IP: a client that opens a new connection gets a fresh key. The comment at internal/service/handler.go:88 speaks of a per-IP limit, and the code does not do that. The model follows the code. `Handler.RoutesShareWindow`, `Handler.StatsReadDelaysSubmission` and `Handler.ReplayRemembersAdmissions` hold per remote address in the same way.
- `cmd/server/main.go` and `cmd/worker/main.go`: flags, connection-pool settings, signal handling and sleep-based shutdown.
- The rate limiter's table is never pruned in the code, and the model keeps every entry too. Memory growth is not modelled.

=== FILE: handler.dfy ===
/**
 * The request-level rules of the HTTP front end
 * (internal/service/handler.go): extracting the account from a stats path,
 * the order of decisions on a trade submission, and the rate limiter,
 * keyed by the request's remote address (IP and port, so one key per
 * connection rather than per host). JSON decoding is an input (`None`
 * for a body that does not decode); the clock is an integer number of
 * nanoseconds.
 */
module Handler {
  import opened Options
  import opened TradeModel
  import opened Repository

  const StatusOK: int := 200
  const StatusBadRequest: int := 400
  const StatusTooManyRequests: int := 429
  const StatusInternalServerError: int := 500

  /** A response: its status and, for a stats read, the statistics sent back. */
  datatype Response = Response(status: int, body: Option<Stats>)

  // ---------------------------------------------------------------------
  // GET /stats/{account}
  // ---------------------------------------------------------------------

  const StatsPrefix: string := "/stats/"

  /** The account captured by the pattern `^/stats/([^/]+)$`, if the path matches it. */
  function ParseStatsPath(path: string): (r: Option<string>)
    ensures r.Some? ==> path == StatsPrefix + r.value && |r.value| > 0 && '/' !in r.value
  {
    if |path| > |StatsPrefix| && path[..|StatsPrefix|] == StatsPrefix && '/' !in path[|StatsPrefix|..]
    then Some(path[|StatsPrefix|..])
    else None
  }

  /** Every non-empty account name without a slash is recovered from its own stats path. */
  lemma ParseStatsPathRoundTrip(account: string)
    requires |account| > 0 && '/' !in account
    ensures ParseStatsPath(StatsPrefix + account) == Some(account)
  {
    assert (StatsPrefix + account)[..|StatsPrefix|] == StatsPrefix;
    assert (StatsPrefix + account)[|StatsPrefix|..] == account;
  }

  /** Paths the pattern rejects. */
  lemma ParseStatsPathRejects()
    ensures ParseStatsPath("/stats/") == None
    ensures ParseStatsPath("/stats/12/3") == None
    ensures ParseStatsPath("/stat/123") == None
    ensures ParseStatsPath("/stats/123") == Some("123")
  {
    assert ("/stats/12/3")[|StatsPrefix|..][2] == '/';
    assert ("/stat/123")[..|StatsPrefix|] != StatsPrefix by {
      assert ("/stat/123")[5] != StatsPrefix[5];
    }
    ParseStatsPathRoundTrip("123");
  }

  /** Serve a stats read: 400 for a bad path, 500 for a failed read, otherwise the totals. */
  function HandleGetStats(s: Store, path: string, fault: bool): (r: Response)
    ensures ParseStatsPath(path).None? ==> r == Response(StatusBadRequest, None)
    ensures ParseStatsPath(path).Some? && fault ==> r == Response(StatusInternalServerError, None)
    // an unknown account is an ordinary 200 with zero totals
    ensures ParseStatsPath(path).Some? && !fault ==>
              var account := ParseStatsPath(path).value;
              r == Response(StatusOK, Some(Stats(account, Lookup(s.stats, account).trades, Lookup(s.stats, account).profit)))
  {
    match ParseStatsPath(path)
    case None => Response(StatusBadRequest, None)
    case Some(account) =>
      match GetAccountStats(s, account, fault)
      case None => Response(StatusInternalServerError, None)
      case Some(stats) => Response(StatusOK, Some(stats))
  }

  // ---------------------------------------------------------------------
  // POST /trades
  // ---------------------------------------------------------------------

  /** The store after a request and the response sent back. */
  datatype Served = Served(store: Store, response: Response)

  /**
   * Serve a trade submission: decode, validate, enqueue, in that order.
   * `decoded` is the decoded body (`None` when it is not valid JSON for a
   * trade) and `fault` stands for a failed insert.
   */
  function HandleTradeSubmission(s: Store, decoded: Option<Trade>, fault: bool): (r: Served)
    ensures decoded.None? ==> r == Served(s, Response(StatusBadRequest, None))
    // a trade that fails any check is rejected with 400 and never reaches the queue
    ensures decoded.Some? && !Acceptable(decoded.value) ==> r == Served(s, Response(StatusBadRequest, None))
    ensures decoded.Some? && Acceptable(decoded.value) && fault ==>
              r == Served(s, Response(StatusInternalServerError, None))
    // an accepted trade is queued with its side normalised, and nothing else changes
    ensures r.response.status == StatusOK <==> decoded.Some? && Acceptable(decoded.value) && !fault
    ensures r.response.status == StatusOK ==>
              && |r.store.queue| == |s.queue| + 1
              && r.store.queue[..|s.queue|] == s.queue
              && r.store.stats == s.stats
              && var row := r.store.queue[|s.queue|];
                 && !row.processed
                 && TradeOf(row) == Validate(decoded.value).trade.(id := row.id)
                 && (row.side == "buy" || row.side == "sell")
    ensures r.response.status != StatusOK ==> r.store == s
    ensures WellFormed(s) ==> WellFormed(r.store)
  {
    match decoded
    case None => Served(s, Response(StatusBadRequest, None))
    case Some(t) =>
      var v := Validate(t);
      if v.outcome.Fail? then Served(s, Response(StatusBadRequest, None))
      else
        match EnqueueTrade(s, v.trade, fault)
        case None => Served(s, Response(StatusInternalServerError, None))
        case Some(s') => Served(s', Response(StatusOK, None))
  }

  /** Every queued row is a trade that passes validation, with a normalised side. */
  predicate RowsValidated(q: seq<Row>)
  {
    forall j :: 0 <= j < |q| ==> Acceptable(TradeOf(q[j])) && (q[j].side == "buy" || q[j].side == "sell")
  }

  /** Validation before enqueue keeps the queue free of invalid rows. */
  lemma SubmissionKeepsRowsValidated(s: Store, decoded: Option<Trade>, fault: bool)
    requires RowsValidated(s.queue)
    ensures RowsValidated(HandleTradeSubmission(s, decoded, fault).store.queue)
  {
    var r := HandleTradeSubmission(s, decoded, fault);
    if r.response.status == StatusOK {
      var t := decoded.value;
      var row := r.store.queue[|s.queue|];
      ValidateIdempotent(t);
      assert Validate(Validate(t).trade).outcome.Pass?;
      assert Acceptable(TradeOf(row)) by {
        forall c
          ensures Passes(TradeOf(row), c)
        {
          assert Passes(Validate(t).trade, c);
        }
      }
      forall j | 0 <= j < |r.store.queue|
        ensures Acceptable(TradeOf(r.store.queue[j])) && (r.store.queue[j].side == "buy" || r.store.queue[j].side == "sell")
      {
        if j < |s.queue| {
          assert r.store.queue[j] == s.queue[j];
        }
      }
    }
  }

  /** A submission never touches the statistics, so it keeps them equal to the processed rows. */
  lemma SubmissionPreservesConservation(s: Store, decoded: Option<Trade>, fault: bool)
    requires Conserved(s)
    ensures Conserved(HandleTradeSubmission(s, decoded, fault).store)
  {
    if decoded.Some? && Validate(decoded.value).outcome.Pass? && !fault {
      EnqueuePreservesConservation(s, Validate(decoded.value).trade, fault);
    }
  }

  // ---------------------------------------------------------------------
  // Rate limiter
  // ---------------------------------------------------------------------

  /** Minimum spacing of two admitted requests with one remote address: 100 ms in nanoseconds. */
  const Window: int := 100 * 1000000

  /** The limiter's decision and the table of last admitted request times it leaves behind. */
  datatype Admission = Admission(last: map<string, int>, allowed: bool)

  /** Decide on a request from remote address `key` arriving at time `now`. */
  function Admit(last: map<string, int>, key: string, now: int): (r: Admission)
    ensures r.allowed <==> key !in last || now - last[key] >= Window
    // admission records the time; rejection leaves the table as it was,
    // so rejected requests never extend a key's window
    ensures r.allowed ==> key in r.last && r.last[key] == now
    ensures !r.allowed ==> r.last == last
    // other keys are never touched
    ensures forall k :: k != key ==> (k in r.last <==> k in last)
    ensures forall k :: k != key && k in last ==> r.last[k] == last[k]
  {
    if key in last && now - last[key] < Window then Admission(last, false)
    else Admission(last[key := now], true)
  }

  // ---------------------------------------------------------------------
  // The server: the routes behind the rate limiter
  // ---------------------------------------------------------------------

  /** The three registered routes, with what each handler reads from the request. */
  datatype Route = PostTrade(decoded: Option<Trade>) | GetStats(path: string) | HealthCheck

  /** The router: each route goes to its handler; `fault` is the storage failure, if any. */
  function Dispatch(s: Store, route: Route, fault: bool): (r: Served)
    // only an accepted submission writes anything
    ensures r.store != s ==> route.PostTrade? && r.response.status == StatusOK
    ensures route.PostTrade? ==> r == HandleTradeSubmission(s, route.decoded, fault)
    // reads and the health check never change the store
    ensures !route.PostTrade? ==> r.store == s
    ensures route.GetStats? ==> r.response == HandleGetStats(s, route.path, fault)
    ensures route.HealthCheck? ==> r.response == Response(StatusOK, None)
  {
    match route
    case PostTrade(decoded) => HandleTradeSubmission(s, decoded, fault)
    case GetStats(path) => Served(s, HandleGetStats(s, path, fault))
    case HealthCheck => Served(s, Response(StatusOK, None))
  }

  /**
   * The whole server: one limiter table in front of every route. A rejected
   * request gets 429 and reaches no handler.
   */
  function Serve(last: map<string, int>, key: string, now: int,
                 s: Store, route: Route, fault: bool): (r: (Admission, Served))
    // the decision depends only on the remote address and the time, never on the route
    ensures r.0 == Admit(last, key, now)
    ensures !r.0.allowed ==> r.1 == Served(s, Response(StatusTooManyRequests, None))
    ensures r.0.allowed ==> r.1 == Dispatch(s, route, fault)
  {
    var a := Admit(last, key, now);
    if a.allowed then (a, Dispatch(s, route, fault))
    else (a, Served(s, Response(StatusTooManyRequests, None)))
  }

  /** Whatever reaches the server, admitted or not, the statistics stay equal to the processed rows. */
  lemma ServePreservesConservation(last: map<string, int>, key: string, now: int,
                                   s: Store, route: Route, fault: bool)
    requires Conserved(s)
    ensures Conserved(Serve(last, key, now, s, route, fault).1.store)
  {
    if route.PostTrade? {
      SubmissionPreservesConservation(s, route.decoded, fault);
    }
  }

  /** Whatever reaches the server, every queued row passes validation. */
  lemma ServeKeepsRowsValidated(last: map<string, int>, key: string, now: int,
                                s: Store, route: Route, fault: bool)
    requires RowsValidated(s.queue)
    ensures RowsValidated(Serve(last, key, now, s, route, fault).1.store.queue)
  {
    if route.PostTrade? {
      SubmissionKeepsRowsValidated(s, route.decoded, fault);
    }
  }

  /**
   * Every route spends the same window: after any admitted request, the
   * next request from the same remote address within 100 ms is refused
   * with 429 and changes nothing, whichever routes the two requests take.
   */
  lemma RoutesShareWindow(last: map<string, int>, key: string, now: int, later: int,
                          s: Store, first: Route, second: Route, fault: bool, fault': bool)
    requires Serve(last, key, now, s, first, fault).0.allowed
    requires now <= later < now + Window
    ensures var a := Serve(last, key, now, s, first, fault);
            var b := Serve(a.0.last, key, later, a.1.store, second, fault');
            !b.0.allowed && b.1 == Served(a.1.store, Response(StatusTooManyRequests, None))
  {
  }

  /** A stats read just before a submission uses up that remote address's window for it. */
  lemma StatsReadDelaysSubmission(key: string, now: int, later: int, s: Store,
                                  path: string, decoded: Option<Trade>, fault: bool)
    requires now <= later < now + Window
    ensures var a := Serve(map[], key, now, s, GetStats(path), fault);
            var b := Serve(a.0.last, key, later, a.1.store, PostTrade(decoded), false);
            a.0.allowed && b.1.response.status == StatusTooManyRequests && b.1.store == s
  {
    RoutesShareWindow(map[], key, now, later, s, GetStats(path), PostTrade(decoded), fault, false);
  }

  datatype Request = Request(key: string, now: int)

  /** The limiter's table after a run of requests, and the decision on each. */
  datatype Trace = Trace(last: map<string, int>, allowed: seq<bool>)

  /** Feed requests in arrival order to a limiter that starts empty. */
  function Replay(reqs: seq<Request>): (r: Trace)
    ensures |r.allowed| == |reqs|
  {
    if |reqs| == 0 then Trace(map[], [])
    else
      var prev := Replay(reqs[..|reqs| - 1]);
      var a := Admit(prev.last, reqs[|reqs| - 1].key, reqs[|reqs| - 1].now);
      Trace(a.last, prev.allowed + [a.allowed])
  }

  predicate ClockNonDecreasing(reqs: seq<Request>)
  {
    forall i, j :: 0 <= i < j < |reqs| ==> reqs[i].now <= reqs[j].now
  }

  /** The table remembers, for every admitted request, a time no earlier than it. */
  lemma {:induction false} ReplayRemembersAdmissions(reqs: seq<Request>)
    requires ClockNonDecreasing(reqs)
    ensures forall i :: 0 <= i < |reqs| && Replay(reqs).allowed[i] ==>
              reqs[i].key in Replay(reqs).last && Replay(reqs).last[reqs[i].key] >= reqs[i].now
  {
    if |reqs| > 0 {
      var n := |reqs| - 1;
      var prefix := reqs[..n];
      var prev := Replay(prefix);
      assert ClockNonDecreasing(prefix);
      ReplayRemembersAdmissions(prefix);
      var r := Replay(reqs);
      forall i | 0 <= i < |reqs| && r.allowed[i]
        ensures reqs[i].key in r.last && r.last[reqs[i].key] >= reqs[i].now
      {
        if i < n {
          assert prefix[i] == reqs[i];
          assert prev.allowed[i];
        }
      }
    }
  }

  /** With a clock that never runs backwards, two admitted requests with one remote address are a full window apart. */
  lemma {:induction false} AdmittedRequestsAreSpaced(reqs: seq<Request>)
    requires ClockNonDecreasing(reqs)
    ensures forall i, j ::
              (0 <= i < j < |reqs| && reqs[i].key == reqs[j].key && Replay(reqs).allowed[i] && Replay(reqs).allowed[j])
              ==> reqs[j].now - reqs[i].now >= Window
  {
    if |reqs| > 0 {
      var n := |reqs| - 1;
      var prefix := reqs[..n];
      var prev := Replay(prefix);
      var r := Replay(reqs);
      assert ClockNonDecreasing(prefix);
      AdmittedRequestsAreSpaced(prefix);
      ReplayRemembersAdmissions(prefix);
      forall i, j | 0 <= i < j < |reqs| && reqs[i].key == reqs[j].key && r.allowed[i] && r.allowed[j]
        ensures reqs[j].now - reqs[i].now >= Window
      {
        assert prefix[i] == reqs[i] && r.allowed[i] == prev.allowed[i];
        if j < n {
          assert prefix[j] == reqs[j] && r.allowed[j] == prev.allowed[j];
        }
      }
    }
  }
}

=== FILE: options.dfy ===
/** A value that may be missing: a failed read, a path that does not match. */
module Options {

  datatype Option<+T> = None | Some(value: T)
}

=== FILE: pipeline.dfy ===
/**
 * The two halves of the system together: submissions through the front
 * end, aggregation by the worker, and reads of the statistics.
 */
module Pipeline {
  import opened Options
  import opened TradeModel
  import opened Repository
  import opened Worker
  import opened Handler

  /** Submit each trade in turn, every insert succeeding. */
  function SubmitAll(s: Store, ts: seq<Trade>): (r: Store)
    ensures |r.queue| >= |s.queue|
  {
    if |ts| == 0 then s
    else HandleTradeSubmission(SubmitAll(s, ts[..|ts| - 1]), Some(ts[|ts| - 1]), false).store
  }

  /** The profit the worker will book for each trade, summed. */
  function SumProfit(ts: seq<Trade>): real
  {
    if |ts| == 0 then 0.0
    else SumProfit(ts[..|ts| - 1]) + CalculateProfit(Validate(ts[|ts| - 1]).trade)
  }

  lemma ProfitIgnoresId(t: Trade, id: int)
    ensures CalculateProfit(t.(id := id)) == CalculateProfit(t)
  {
  }

  /** Each acceptable submission appends its own validated trade as an unprocessed row. */
  lemma {:induction false} SubmitAllRows(ts: seq<Trade>)
    requires forall k :: 0 <= k < |ts| ==> Acceptable(ts[k])
    ensures var s := SubmitAll(EmptyStore(), ts);
            && |s.queue| == |ts|
            && forall k :: 0 <= k < |ts| ==>
                 !s.queue[k].processed && TradeOf(s.queue[k]) == Validate(ts[k]).trade.(id := s.queue[k].id)
  {
    if |ts| > 0 {
      var n := |ts| - 1;
      var front := ts[..n];
      SubmitAllRows(front);
      var s := SubmitAll(EmptyStore(), front);
      var r := HandleTradeSubmission(s, Some(ts[n]), false);
      forall k | 0 <= k < |ts|
        ensures !r.store.queue[k].processed && TradeOf(r.store.queue[k]) == Validate(ts[k]).trade.(id := r.store.queue[k].id)
      {
        if k < n {
          assert r.store.queue[..|s.queue|][k] == s.queue[k];
          assert front[k] == ts[k];
        }
      }
    }
  }

  /** The totals half: N acceptable trades of one account give that account N rows and their profit sum. */
  lemma {:induction false} SubmitAllTotals(ts: seq<Trade>, account: string)
    requires forall k :: 0 <= k < |ts| ==> Acceptable(ts[k]) && ts[k].account == account
    ensures var s := SubmitAll(EmptyStore(), ts);
            && WellFormed(s) && Conserved(s)
            && |s.queue| == |ts|
            && AccountRows(s.queue, account) == |ts|
            && AccountProfit(s.queue, account) == SumProfit(ts)
  {
    EmptyStoreWellFormed();
    EmptyStoreConserved();
    if |ts| > 0 {
      var n := |ts| - 1;
      var front := ts[..n];
      SubmitAllTotals(front, account);
      var s := SubmitAll(EmptyStore(), front);
      var r := HandleTradeSubmission(s, Some(ts[n]), false);
      SubmissionPreservesConservation(s, Some(ts[n]), false);
      var row := r.store.queue[|s.queue|];
      assert r.store.queue == s.queue + [row];
      assert (s.queue + [row])[..|s.queue|] == s.queue;
      assert RowProfit(row) == CalculateProfit(Validate(ts[n]).trade) by {
        ProfitIgnoresId(Validate(ts[n]).trade, row.id);
      }
    }
  }

  /** Submitting acceptable trades of one account into an empty repository queues exactly them. */
  lemma SubmitAllQueues(ts: seq<Trade>, account: string)
    requires forall k :: 0 <= k < |ts| ==> Acceptable(ts[k]) && ts[k].account == account
    ensures var s := SubmitAll(EmptyStore(), ts);
            && WellFormed(s) && Conserved(s)
            && |s.queue| == |ts|
            && AccountRows(s.queue, account) == |ts|
            && AccountProfit(s.queue, account) == SumProfit(ts)
            // row k is the k-th trade as validation left it, still unprocessed
            && forall k :: 0 <= k < |ts| ==>
                 !s.queue[k].processed && TradeOf(s.queue[k]) == Validate(ts[k]).trade.(id := s.queue[k].id)
  {
    SubmitAllTotals(ts, account);
    SubmitAllRows(ts);
  }

  /**
   * Conservation end to end: after N acceptable trades of one account are
   * submitted and enough quiet worker iterations run, the account reads
   * back N trades and the sum of their profits.
   */
  lemma SubmitThenDrain(ts: seq<Trade>, account: string, batchSize: int, polls: seq<Poll>)
    requires forall k :: 0 <= k < |ts| ==> Acceptable(ts[k]) && ts[k].account == account
    requires batchSize != 0 && |polls| >= |ts|
    requires QuietPolls(polls)
    ensures GetAccountStats(Run(SubmitAll(EmptyStore(), ts), batchSize, polls), account, false)
            == Some(Stats(account, |ts|, SumProfit(ts)))
  {
    var s := SubmitAll(EmptyStore(), ts);
    SubmitAllTotals(ts, account);
    CountsAddUp(s.queue);
    DrainReportsEveryRow(s, batchSize, polls, account);
  }

  /** The same, read through the stats endpoint. */
  lemma SubmitThenDrainThenRead(ts: seq<Trade>, account: string, batchSize: int, polls: seq<Poll>)
    requires forall k :: 0 <= k < |ts| ==> Acceptable(ts[k]) && ts[k].account == account
    requires |account| > 0 && '/' !in account
    requires batchSize != 0 && |polls| >= |ts|
    requires QuietPolls(polls)
    ensures HandleGetStats(Run(SubmitAll(EmptyStore(), ts), batchSize, polls), StatsPrefix + account, false)
            == Response(StatusOK, Some(Stats(account, |ts|, SumProfit(ts))))
  {
    var s := Run(SubmitAll(EmptyStore(), ts), batchSize, polls);
    SubmitThenDrain(ts, account, batchSize, polls);
    ParseStatsPathRoundTrip(account);
    assert GetAccountStats(s, account, false) == Some(Stats(account, Lookup(s.stats, account).trades, Lookup(s.stats, account).profit));
  }
}

=== FILE: repository.dfy ===
/**
 * The trade queue and the per-account statistics as an abstract state, and
 * each repository operation as a transition on it (internal/db/db.go).
 *
 * The SQL tables become a sequence of rows in insertion order plus a map
 * from account to totals; storage failures are a boolean oracle.
 */
module Repository {
  import opened Options
  import opened TradeModel

  /** One row of the trade queue. */
  datatype Row = Row(id: int, account: string, symbol: string, volume: real,
                     open: real, close: real, side: string, processed: bool)

  /** One row of the statistics table. */
  datatype Totals = Totals(trades: int, profit: real)

  /**
   * The whole repository. `nextId` is the id the next insert receives:
   * ids come from an autoincrement counter and are never reused.
   */
  datatype Store = Store(queue: seq<Row>, stats: map<string, Totals>, nextId: int)

  /** A freshly initialised database. */
  function EmptyStore(): Store
  {
    Store([], map[], 1)
  }

  /** The trade a row is read back as. */
  function TradeOf(r: Row): Trade
  {
    Trade(r.id, r.account, r.symbol, r.volume, r.open, r.close, r.side)
  }

  /** The profit the worker books for a row. */
  function RowProfit(r: Row): real
  {
    CalculateProfit(TradeOf(r))
  }

  /** Totals of an account, with an absent account reading as zero. */
  function Lookup(stats: map<string, Totals>, account: string): Totals
  {
    if account in stats then stats[account] else Totals(0, 0.0)
  }

  // ---------------------------------------------------------------------
  // Well-formedness
  // ---------------------------------------------------------------------

  /** Queue ids strictly increase in insertion order (hence are unique). */
  predicate IdsIncreasing(q: seq<Row>)
  {
    forall i, j :: 0 <= i < j < |q| ==> q[i].id < q[j].id
  }

  predicate WellFormed(s: Store)
  {
    && s.nextId >= 1
    && IdsIncreasing(s.queue)
    && (forall i :: 0 <= i < |s.queue| ==> 1 <= s.queue[i].id < s.nextId)
    // an account only enters the table together with its first trade
    && (forall a :: a in s.stats ==> s.stats[a].trades >= 1)
  }

  lemma EmptyStoreWellFormed()
    ensures WellFormed(EmptyStore())
  {
  }

  // ---------------------------------------------------------------------
  // Conservation: the statistics are exactly the processed rows
  // ---------------------------------------------------------------------

  /** Number of processed rows of `account`. */
  function ProcessedCount(q: seq<Row>, account: string): nat
  {
    if |q| == 0 then 0
    else ProcessedCount(q[..|q| - 1], account)
         + (if q[|q| - 1].processed && q[|q| - 1].account == account then 1 else 0)
  }

  /** Sum of the profits of the processed rows of `account`. */
  function ProcessedProfit(q: seq<Row>, account: string): real
  {
    if |q| == 0 then 0.0
    else ProcessedProfit(q[..|q| - 1], account)
         + (if q[|q| - 1].processed && q[|q| - 1].account == account then RowProfit(q[|q| - 1]) else 0.0)
  }

  /** The central invariant of the system. */
  ghost predicate Conserved(s: Store)
  {
    forall a :: Lookup(s.stats, a) == Totals(ProcessedCount(s.queue, a), ProcessedProfit(s.queue, a))
  }

  lemma EmptyStoreConserved()
    ensures Conserved(EmptyStore())
  {
  }

  /** Number of unprocessed rows. */
  function PendingCount(q: seq<Row>): nat
  {
    if |q| == 0 then 0
    else PendingCount(q[..|q| - 1]) + (if q[|q| - 1].processed then 0 else 1)
  }

  /** Number of processed rows. */
  function DoneCount(q: seq<Row>): nat
  {
    if |q| == 0 then 0
    else DoneCount(q[..|q| - 1]) + (if q[|q| - 1].processed then 1 else 0)
  }

  lemma {:induction false} CountsAddUp(q: seq<Row>)
    ensures DoneCount(q) + PendingCount(q) == |q|
  {
    if |q| > 0 {
      CountsAddUp(q[..|q| - 1]);
    }
  }

  /** Number of rows of `account`, processed or not. */
  function AccountRows(q: seq<Row>, account: string): nat
  {
    if |q| == 0 then 0
    else AccountRows(q[..|q| - 1], account) + (if q[|q| - 1].account == account then 1 else 0)
  }

  /** Sum of the profits of all rows of `account`. */
  function AccountProfit(q: seq<Row>, account: string): real
  {
    if |q| == 0 then 0.0
    else AccountProfit(q[..|q| - 1], account) + (if q[|q| - 1].account == account then RowProfit(q[|q| - 1]) else 0.0)
  }

  /** Once nothing is pending, the processed totals of an account are the totals of all its rows. */
  lemma {:induction false} DrainedTotals(q: seq<Row>, a: string)
    requires PendingCount(q) == 0
    ensures ProcessedCount(q, a) == AccountRows(q, a)
    ensures ProcessedProfit(q, a) == AccountProfit(q, a)
  {
    if |q| > 0 {
      DrainedTotals(q[..|q| - 1], a);
    }
  }

  /** `q'` differs from `q` at most in processed flags. */
  predicate SameRowsUpToFlags(q: seq<Row>, q': seq<Row>)
  {
    |q'| == |q| && forall j :: 0 <= j < |q| ==> q'[j].(processed := q[j].processed) == q[j]
  }

  lemma {:induction false} FlagsDoNotMoveAccountTotals(q: seq<Row>, q': seq<Row>, a: string)
    requires SameRowsUpToFlags(q, q')
    ensures AccountRows(q', a) == AccountRows(q, a)
    ensures AccountProfit(q', a) == AccountProfit(q, a)
  {
    if |q| > 0 {
      var n := |q| - 1;
      assert TradeOf(q'[n]) == TradeOf(q[n]) by {
        assert q'[n].(processed := q[n].processed) == q[n];
      }
      FlagsDoNotMoveAccountTotals(q[..n], q'[..n], a);
    }
  }

  // ---------------------------------------------------------------------
  // EnqueueTrade
  // ---------------------------------------------------------------------

  /** Insert a trade as a new unprocessed row; `fault` stands for a failed insert. */
  function EnqueueTrade(s: Store, t: Trade, fault: bool): (r: Option<Store>)
    ensures fault <==> r.None?
    ensures r.Some? ==>
              && |r.value.queue| == |s.queue| + 1
              && r.value.queue[..|s.queue|] == s.queue
              && !r.value.queue[|s.queue|].processed
              // the stored row is the submitted trade with only its id replaced
              && TradeOf(r.value.queue[|s.queue|]) == t.(id := r.value.queue[|s.queue|].id)
              && r.value.stats == s.stats
    // the new id is above every id ever handed out, so it is fresh
    ensures r.Some? ==>
              && r.value.queue[|s.queue|].id >= s.nextId
              && r.value.nextId > r.value.queue[|s.queue|].id
    ensures r.Some? && WellFormed(s) ==> WellFormed(r.value)
  {
    if fault then None
    else
      var row := Row(s.nextId, t.account, t.symbol, t.volume, t.open, t.close, t.side, false);
      Some(Store(s.queue + [row], s.stats, s.nextId + 1))
  }

  /** Appending an unprocessed row leaves every account's processed totals alone. */
  lemma AppendPendingRow(q: seq<Row>, row: Row, a: string)
    requires !row.processed
    ensures ProcessedCount(q + [row], a) == ProcessedCount(q, a)
    ensures ProcessedProfit(q + [row], a) == ProcessedProfit(q, a)
    ensures PendingCount(q + [row]) == PendingCount(q) + 1
    ensures DoneCount(q + [row]) == DoneCount(q)
  {
    assert (q + [row])[..|q|] == q;
  }

  lemma EnqueuePreservesConservation(s: Store, t: Trade, fault: bool)
    requires Conserved(s)
    requires EnqueueTrade(s, t, fault).Some?
    ensures Conserved(EnqueueTrade(s, t, fault).value)
  {
    var s' := EnqueueTrade(s, t, fault).value;
    var row := s'.queue[|s.queue|];
    assert s'.queue == s.queue + [row];
    forall a
      ensures Lookup(s'.stats, a) == Totals(ProcessedCount(s'.queue, a), ProcessedProfit(s'.queue, a))
    {
      AppendPendingRow(s.queue, row, a);
    }
  }

  // ---------------------------------------------------------------------
  // GetUnprocessedTrades
  // ---------------------------------------------------------------------

  /** `t` is what an unprocessed row of `q` reads back as. */
  predicate IsPendingRow(q: seq<Row>, t: Trade)
  {
    exists i :: 0 <= i < |q| && !q[i].processed && TradeOf(q[i]) == t
  }

  predicate DistinctIds(ts: seq<Trade>)
  {
    forall k, l :: 0 <= k < l < |ts| ==> ts[k].id != ts[l].id
  }

  /** How many rows a fetch with this limit returns; a negative limit means no limit. */
  function FetchSize(pending: nat, limit: int): nat
  {
    if limit < 0 || pending <= limit then pending else limit
  }

  /**
   * What a successful fetch may return. Rows are ordered by a timestamp of
   * one-second resolution, so rows enqueued within the same second come back
   * in an unspecified order: any selection of distinct unprocessed rows of
   * the right size is admitted.
   */
  predicate IsFetchResult(s: Store, limit: int, ts: seq<Trade>)
  {
    |ts| == FetchSize(PendingCount(s.queue), limit) && PendingBatch(s, ts)
  }

  /** Distinct trades, each read from an unprocessed row: what a batch of work is. */
  predicate PendingBatch(s: Store, ts: seq<Trade>)
  {
    DistinctIds(ts) && forall k :: 0 <= k < |ts| ==> IsPendingRow(s.queue, ts[k])
  }

  /** The unprocessed rows of a queue, in queue order, as trades. */
  function PendingTrades(q: seq<Row>): (r: seq<Trade>)
    ensures |r| == PendingCount(q)
    ensures forall k :: 0 <= k < |r| ==> IsPendingRow(q, r[k])
    ensures IdsIncreasing(q) ==> forall k, l :: 0 <= k < l < |r| ==> r[k].id < r[l].id
  {
    if |q| == 0 then []
    else
      var front := PendingTrades(q[..|q| - 1]);
      PendingInPrefixIsPending(q, front);
      if q[|q| - 1].processed then front
      else
        PendingInPrefixPrecedesLast(q, front);
        front + [TradeOf(q[|q| - 1])]
  }

  lemma PendingInPrefixIsPending(q: seq<Row>, front: seq<Trade>)
    requires |q| > 0
    requires forall k :: 0 <= k < |front| ==> IsPendingRow(q[..|q| - 1], front[k])
    ensures forall k :: 0 <= k < |front| ==> IsPendingRow(q, front[k])
  {
    forall k | 0 <= k < |front|
      ensures IsPendingRow(q, front[k])
    {
      var p := q[..|q| - 1];
      assert IsPendingRow(p, front[k]);
      var i :| 0 <= i < |p| && !p[i].processed && TradeOf(p[i]) == front[k];
      assert q[i] == p[i];
    }
  }

  lemma PendingInPrefixPrecedesLast(q: seq<Row>, front: seq<Trade>)
    requires |q| > 0
    requires forall k :: 0 <= k < |front| ==> IsPendingRow(q[..|q| - 1], front[k])
    ensures IdsIncreasing(q) ==> forall k :: 0 <= k < |front| ==> front[k].id < q[|q| - 1].id
  {
    if IdsIncreasing(q) {
      forall k | 0 <= k < |front|
        ensures front[k].id < q[|q| - 1].id
      {
        var p := q[..|q| - 1];
        assert IsPendingRow(p, front[k]);
        var i :| 0 <= i < |p| && !p[i].processed && TradeOf(p[i]) == front[k];
        assert q[i] == p[i];
      }
    }
  }

  /** Fetch up to `limit` unprocessed trades; `fault` stands for a failed query. */
  function GetUnprocessedTrades(s: Store, limit: int, fault: bool): (r: Option<seq<Trade>>)
    ensures fault <==> r.None?
    ensures r.Some? && WellFormed(s) ==> IsFetchResult(s, limit, r.value)
  {
    if fault then None
    else
      var all := PendingTrades(s.queue);
      Some(all[..FetchSize(|all|, limit)])
  }

  // ---------------------------------------------------------------------
  // UpdateAccountStats
  // ---------------------------------------------------------------------

  /** Insert-or-increment of an account's totals by one trade and `profit`. */
  function UpdateAccountStats(stats: map<string, Totals>, account: string, profit: real)
    : (r: map<string, Totals>)
    // insert at (1, profit) and increment are one rule once absence reads as zero
    ensures Lookup(r, account) == Totals(Lookup(stats, account).trades + 1, Lookup(stats, account).profit + profit)
    ensures r.Keys == stats.Keys + {account}
    ensures forall a :: a != account && a in stats ==> r[a] == stats[a]
    ensures (forall a :: a in stats ==> stats[a].trades >= 1) ==> forall a :: a in r ==> r[a].trades >= 1
  {
    if account in stats then
      stats[account := Totals(stats[account].trades + 1, stats[account].profit + profit)]
    else
      stats[account := Totals(1, profit)]
  }

  // ---------------------------------------------------------------------
  // MarkTradeAsProcessed
  // ---------------------------------------------------------------------

  /** Set the processed flag of the row with this id; a missing id is silently ignored. */
  function MarkTradeAsProcessed(q: seq<Row>, id: int): (r: seq<Row>)
    ensures |r| == |q|
    // nothing but the flag changes
    ensures forall i :: 0 <= i < |q| ==> r[i].(processed := q[i].processed) == q[i]
    // and the flag is raised exactly on the row with that id
    ensures forall i :: 0 <= i < |q| ==> r[i].processed == (q[i].processed || q[i].id == id)
  {
    seq(|q|, i requires 0 <= i < |q| => if q[i].id == id then q[i].(processed := true) else q[i])
  }

  lemma MarkIdempotent(q: seq<Row>, id: int)
    ensures MarkTradeAsProcessed(MarkTradeAsProcessed(q, id), id) == MarkTradeAsProcessed(q, id)
  {
  }

  lemma MarkMissingIdIsNoOp(q: seq<Row>, id: int)
    requires forall i :: 0 <= i < |q| ==> q[i].id != id
    ensures MarkTradeAsProcessed(q, id) == q
  {
  }

  /**
   * Marking the unprocessed row at index `i` moves exactly that row into the
   * processed totals of its account, provided ids are unique.
   */
  lemma {:induction false} MarkPendingRow(q: seq<Row>, i: nat, a: string)
    requires IdsIncreasing(q)
    requires i < |q| && !q[i].processed
    ensures ProcessedCount(MarkTradeAsProcessed(q, q[i].id), a)
            == ProcessedCount(q, a) + (if q[i].account == a then 1 else 0)
    ensures ProcessedProfit(MarkTradeAsProcessed(q, q[i].id), a)
            == ProcessedProfit(q, a) + (if q[i].account == a then RowProfit(q[i]) else 0.0)
    ensures PendingCount(MarkTradeAsProcessed(q, q[i].id)) + 1 == PendingCount(q)
    ensures DoneCount(MarkTradeAsProcessed(q, q[i].id)) == DoneCount(q) + 1
  {
    var id := q[i].id;
    var m := MarkTradeAsProcessed(q, id);
    var n := |q| - 1;
    assert MarkTradeAsProcessed(q[..n], id) == m[..n];
    if i == n {
      assert forall j :: 0 <= j < n ==> q[j].id != id;
      MarkMissingIdIsNoOp(q[..n], id);
    } else {
      MarkPendingRow(q[..n], i, a);
      assert q[..n][i] == q[i];
      assert q[n].id != id;
    }
  }

  /** With unique ids, marking raises at most one flag. */
  lemma {:induction false} MarkRaisesAtMostOne(q: seq<Row>, id: int)
    requires IdsIncreasing(q)
    ensures DoneCount(MarkTradeAsProcessed(q, id)) <= DoneCount(q) + 1
    ensures PendingCount(MarkTradeAsProcessed(q, id)) <= PendingCount(q)
  {
    var m := MarkTradeAsProcessed(q, id);
    if |q| > 0 {
      var n := |q| - 1;
      assert MarkTradeAsProcessed(q[..n], id) == m[..n];
      if q[n].id == id && !q[n].processed {
        assert forall j :: 0 <= j < n ==> q[j].id != id;
        MarkMissingIdIsNoOp(q[..n], id);
      } else {
        MarkRaisesAtMostOne(q[..n], id);
      }
    }
  }

  // ---------------------------------------------------------------------
  // GetAccountStats
  // ---------------------------------------------------------------------

  /** Read an account's statistics; an unknown account reads as zero, never as an error. */
  function GetAccountStats(s: Store, account: string, fault: bool): (r: Option<Stats>)
    ensures fault <==> r.None?
    ensures r.Some? ==> r.value.account == account
    ensures r.Some? && account !in s.stats ==> r.value == Stats(account, 0, 0.0)
    ensures r.Some? && account in s.stats ==>
              r.value.trades == s.stats[account].trades && r.value.profit == s.stats[account].profit
  {
    if fault then None
    else if account in s.stats then Some(Stats(account, s.stats[account].trades, s.stats[account].profit))
    else Some(Stats(account, 0, 0.0))
  }

  /** On a conserved store, a read reports exactly the processed rows of the account. */
  lemma ReadReportsProcessedRows(s: Store, account: string)
    requires Conserved(s)
    ensures GetAccountStats(s, account, false)
            == Some(Stats(account, ProcessedCount(s.queue, account), ProcessedProfit(s.queue, account)))
  {
    assert Lookup(s.stats, account) == Totals(ProcessedCount(s.queue, account), ProcessedProfit(s.queue, account));
  }
}

=== FILE: scenarios.dfy ===
/** The concrete cases the repository's tests check, stated against the model. */
module Scenarios {
  import opened Options
  import opened TradeModel
  import opened Repository
  import opened Worker
  import opened Handler
  import opened Pipeline

  function EurUsd(account: string, open: real, close: real, side: string): Trade
  {
    Trade(0, account, "EURUSD", 1.0, open, close, side)
  }

  lemma LowerOfLowerSides()
    ensures ToLower("buy") == "buy" && ToLower("sell") == "sell"
  {
  }

  /** The validation table: one accepted trade and four rejected ones, each for the expected reason. */
  lemma ValidationCases()
    ensures Validate(EurUsd("123", 1.1000, 1.1050, "buy")) == Validated(EurUsd("123", 1.1000, 1.1050, "buy"), Pass)
    ensures Validate(EurUsd("", 1.1000, 1.1050, "buy")).outcome == Fail(AccountCheck)
    ensures Validate(EurUsd("123", 1.1000, 1.1050, "buy").(symbol := "EUR")).outcome == Fail(SymbolCheck)
    ensures Validate(EurUsd("123", 1.1000, 1.1050, "buy").(volume := 0.0)).outcome == Fail(VolumeCheck)
    ensures Validate(EurUsd("123", 1.1000, 1.1050, "invalid")).outcome == Fail(SideCheck)
  {
    LowerOfLowerSides();
    assert !SymbolWellFormed("EUR");
    assert ToLower("invalid") == "invalid";
  }

  /** An empty account is reported even when the symbol is bad too. */
  lemma FirstFailureWins()
    ensures Validate(Trade(0, "", "eur", 1.0, 1.1, 1.2, "buy")).outcome == Fail(AccountCheck)
  {
  }

  /** An upper-case side is accepted and stored in lower case. */
  lemma UpperCaseSideNormalised()
    ensures Validate(EurUsd("123", 1.1000, 1.1050, "BUY")) == Validated(EurUsd("123", 1.1000, 1.1050, "buy"), Pass)
  {
    assert ToLower("BUY") == "buy";
    LowerOfLowerSides();
  }

  /** The profit table: a five-pip move on one lot is worth 500 either way. */
  lemma ProfitCases()
    ensures CalculateProfit(EurUsd("", 1.1000, 1.1050, "buy")) == 500.0
    ensures CalculateProfit(EurUsd("", 1.1050, 1.1000, "sell")) == 500.0
    ensures CalculateProfit(EurUsd("", 1.1050, 1.1000, "buy")) == -500.0
    ensures CalculateProfit(EurUsd("", 1.1000, 1.1050, "sell")) == -500.0
    // a side that only differs in case is priced as a buy by the calculator itself
    ensures CalculateProfit(EurUsd("", 1.1000, 1.1050, "SELL")) == 500.0
  {
  }

  lemma SumProfitOfOne(a: Trade)
    ensures SumProfit([a]) == CalculateProfit(Validate(a).trade)
  {
    assert [a][..0] == [];
  }

  lemma SumProfitOfTwo(a: Trade, b: Trade)
    ensures SumProfit([a, b]) == CalculateProfit(Validate(a).trade) + CalculateProfit(Validate(b).trade)
  {
    assert [a, b][..1] == [a];
    SumProfitOfOne(a);
    assert SumProfit([a, b]) == SumProfit([a]) + CalculateProfit(Validate(b).trade);
  }

  lemma StatsPathOf123()
    ensures StatsPrefix + "123" == "/stats/123"
  {
  }

  /**
   * The end-to-end scenario: submit the EURUSD buy for account 123, let the
   * worker run one quiet iteration, read /stats/123: one trade, profit 500.
   * The submitted trades are a parameter pinned by `requires` rather than a
   * literal in the statement, so that the verifier does not unfold
   * `SubmitAll` on a literal sequence; the iteration may fetch in any
   * admissible order.
   */
  lemma EndToEndOneTrade(first: seq<Trade>, polls: seq<Poll>)
    requires first == [EurUsd("123", 1.1000, 1.1050, "buy")]
    requires |polls| == 1 && QuietPolls(polls)
    ensures HandleGetStats(Run(SubmitAll(EmptyStore(), first), 10, polls), "/stats/123", false)
            == Response(StatusOK, Some(Stats("123", 1, 500.0)))
  {
    ValidationCases();
    SumProfitOfOne(first[0]);
    SubmitThenDrainThenRead(first, "123", 10, polls);
    StatsPathOf123();
  }

  /**
   * Then the opposite sell on the same account: two trades, profit 1000,
   * after two quiet iterations. The trades are pinned by `requires` for the
   * same reason as above.
   */
  lemma EndToEndTwoTrades(both: seq<Trade>, polls: seq<Poll>)
    requires both == [EurUsd("123", 1.1000, 1.1050, "buy"), EurUsd("123", 1.1050, 1.1000, "sell")]
    requires |polls| == 2 && QuietPolls(polls)
    ensures HandleGetStats(Run(SubmitAll(EmptyStore(), both), 10, polls), "/stats/123", false)
            == Response(StatusOK, Some(Stats("123", 2, 1000.0)))
  {
    var t1 := both[0];
    var t2 := both[1];
    ValidationCases();
    LowerOfLowerSides();
    assert Validate(t2) == Validated(t2, Pass);
    SubmitThenDrainThenRead(both, "123", 10, polls);
    StatsPathOf123();
    SumProfitOfTwo(t1, t2);
    assert CalculateProfit(t1) == 500.0;
    assert CalculateProfit(t2) == 500.0;
  }
}

=== FILE: trade.dfy ===
/**
 * Trade records, their validation and their profit
 * (internal/model/model.go).
 *
 * Prices, volumes and profits are mathematical reals: the model states the
 * exact profit, not its IEEE-754 approximation.
 */
module TradeModel {

  /** Contract size of one standard lot. */
  const LotSize: real := 100000.0

  /** A trade report; `id` is meaningful only for a trade read back from the queue. */
  datatype Trade = Trade(id: int, account: string, symbol: string,
                         volume: real, open: real, close: real, side: string)

  /** The aggregate a client reads back for one account. */
  datatype Stats = Stats(account: string, trades: int, profit: real)

  /** The six checks of validation, in the order in which they run. */
  datatype Check = AccountCheck | SymbolCheck | VolumeCheck | OpenCheck | CloseCheck | SideCheck

  datatype Outcome = Pass | Fail(failed: Check)

  /**
   * What validation leaves behind: the trade as it is after the call
   * (validation rewrites `side` once it gets that far) and the verdict.
   */
  datatype Validated = Validated(trade: Trade, outcome: Outcome)

  /** Position of a check in the validation order. */
  function Rank(c: Check): nat
  {
    match c
    case AccountCheck => 0
    case SymbolCheck => 1
    case VolumeCheck => 2
    case OpenCheck => 3
    case CloseCheck => 4
    case SideCheck => 5
  }

  /** ASCII lower-casing of one character. */
  function LowerChar(c: char): char
  {
    if 'A' <= c <= 'Z' then (c as int + 32) as char else c
  }

  function ToLower(s: string): (r: string)
    ensures |r| == |s|
    ensures forall i :: 0 <= i < |s| ==> r[i] == LowerChar(s[i])
  {
    seq(|s|, i requires 0 <= i < |s| => LowerChar(s[i]))
  }

  lemma ToLowerIdempotent(s: string)
    ensures ToLower(ToLower(s)) == ToLower(s)
  {
  }

  predicate IsUpperLetter(c: char)
  {
    'A' <= c <= 'Z'
  }

  /** The symbol format: exactly six upper-case ASCII letters. */
  predicate SymbolWellFormed(symbol: string)
  {
    |symbol| == 6 && forall i :: 0 <= i < |symbol| ==> IsUpperLetter(symbol[i])
  }

  /** Whether trade `t` passes check `c`, each check judged on its own. */
  predicate Passes(t: Trade, c: Check)
  {
    match c
    case AccountCheck => |t.account| > 0
    case SymbolCheck => SymbolWellFormed(t.symbol)
    case VolumeCheck => t.volume > 0.0
    case OpenCheck => t.open > 0.0
    case CloseCheck => t.close > 0.0
    case SideCheck => ToLower(t.side) == "buy" || ToLower(t.side) == "sell"
  }

  /** Every check passes. */
  predicate Acceptable(t: Trade)
  {
    forall c :: Passes(t, c)
  }

  /** Validation: run the checks in order, report the first that fails. */
  function Validate(t: Trade): (r: Validated)
    // accepted exactly when every check passes
    ensures r.outcome.Pass? <==> Acceptable(t)
    // a reported failure is a failing check all of whose predecessors pass
    ensures r.outcome.Fail? ==>
              && !Passes(t, r.outcome.failed)
              && forall c :: Rank(c) < Rank(r.outcome.failed) ==> Passes(t, c)
    // only `side` can change, and it changes to its lower-case form exactly
    // when the side check is reached
    ensures r.trade == t.(side := r.trade.side)
    ensures (r.outcome.Pass? || r.outcome == Fail(SideCheck)) ==> r.trade.side == ToLower(t.side)
    ensures !(r.outcome.Pass? || r.outcome == Fail(SideCheck)) ==> r.trade == t
    // an accepted trade carries a normalised side
    ensures r.outcome.Pass? ==> r.trade.side == "buy" || r.trade.side == "sell"
  {
    if t.account == "" then
      assert !Passes(t, AccountCheck);
      Validated(t, Fail(AccountCheck))
    else if !SymbolWellFormed(t.symbol) then
      assert !Passes(t, SymbolCheck);
      Validated(t, Fail(SymbolCheck))
    else if t.volume <= 0.0 then
      assert !Passes(t, VolumeCheck);
      Validated(t, Fail(VolumeCheck))
    else if t.open <= 0.0 then
      assert !Passes(t, OpenCheck);
      Validated(t, Fail(OpenCheck))
    else if t.close <= 0.0 then
      assert !Passes(t, CloseCheck);
      Validated(t, Fail(CloseCheck))
    else
      var lowered := t.(side := ToLower(t.side));
      if lowered.side != "buy" && lowered.side != "sell" then
        assert !Passes(t, SideCheck);
        Validated(lowered, Fail(SideCheck))
      else
        Validated(lowered, Pass)
  }

  /** Validating the trade that validation left behind gives the same answer and changes nothing more. */
  lemma ValidateIdempotent(t: Trade)
    ensures Validate(Validate(t).trade) == Validate(t)
  {
    ToLowerIdempotent(t.side);
  }

  /** Profit of a trade in account currency. */
  function CalculateProfit(t: Trade): (r: real)
    // on a trade that closed above its open, only a sell loses money
    ensures t.volume > 0.0 && t.close > t.open ==> (r < 0.0 <==> t.side == "sell")
    ensures t.volume > 0.0 && t.close > t.open ==> (r > 0.0 <==> t.side != "sell")
    ensures t.close == t.open ==> r == 0.0
  {
    var gross := (t.close - t.open) * t.volume * LotSize;
    if t.side == "sell" then -gross else gross
  }

  /** The price difference times volume and lot size, with the sign of a buy. */
  function BuyProfit(t: Trade): real
  {
    (t.close - t.open) * t.volume * LotSize
  }

  /** A buy earns the lot-scaled price move; a sell earns exactly its negation. */
  lemma ProfitBySide(t: Trade)
    ensures t.side == "buy" ==> CalculateProfit(t) == BuyProfit(t)
    ensures t.side == "sell" ==> CalculateProfit(t) == -BuyProfit(t)
    ensures CalculateProfit(t.(side := "sell")) == -CalculateProfit(t.(side := "buy"))
  {
  }

  /** Only the exact string "sell" negates; any other side is priced as a buy. */
  lemma OnlyExactSellNegates(t: Trade)
    requires t.side != "sell"
    ensures CalculateProfit(t) == CalculateProfit(t.(side := "buy"))
  {
  }

  /** Profit scales linearly with volume. */
  lemma ProfitLinearInVolume(t: Trade, k: real)
    ensures CalculateProfit(t.(volume := k * t.volume)) == k * CalculateProfit(t)
  {
    var g := (t.close - t.open) * t.volume * LotSize;
    assert (t.close - t.open) * (k * t.volume) * LotSize == k * g;
  }

  /**
   * Validation is what makes the profit's sign meaningful: for an accepted
   * trade, the side as submitted, in any letter case, decides the sign.
   */
  lemma ValidatedProfit(t: Trade)
    requires Validate(t).outcome.Pass?
    ensures ToLower(t.side) == "sell" ==> CalculateProfit(Validate(t).trade) == -BuyProfit(t)
    ensures ToLower(t.side) == "buy" ==> CalculateProfit(Validate(t).trade) == BuyProfit(t)
  {
  }
}

=== FILE: worker.dfy ===
/**
 * The aggregation worker (internal/service/server.go): one transaction per
 * trade, a cancellable pass over a fetched batch, and the polling loop.
 *
 * The database transaction, the context and the clock are abstracted: a
 * `TxFault` says which step of a transaction fails, and cancellation is an
 * oracle consulted before each trade of a batch.
 */
module Worker {
  import opened Options
  import opened TradeModel
  import opened Repository

  /** Which step of the per-trade transaction fails, if any. */
  datatype TxFault = NoFault | BeginFails | UpsertFails | MarkFails | CommitFails

  datatype TradeResult = TradeResult(store: Store, committed: bool)

  // ---------------------------------------------------------------------
  // processTrade
  // ---------------------------------------------------------------------

  /**
   * Book one trade: upsert its account's statistics and mark its row
   * processed in one transaction. Writes made inside the transaction are
   * published only by a successful commit; any failure rolls them back.
   */
  function ProcessTrade(s: Store, t: Trade, fault: TxFault): (r: TradeResult)
    ensures r.committed <==> fault == NoFault
    // failure at any step leaves queue and statistics exactly as they were
    ensures !r.committed ==> r.store == s
    // success adds one trade and its profit to its account and nothing to any other
    ensures r.committed ==>
              Lookup(r.store.stats, t.account)
              == Totals(Lookup(s.stats, t.account).trades + 1, Lookup(s.stats, t.account).profit + CalculateProfit(t))
    ensures r.committed ==> forall a :: a != t.account ==> Lookup(r.store.stats, a) == Lookup(s.stats, a)
    // ... and raises the processed flag of the row with the trade's id and no other
    ensures |r.store.queue| == |s.queue| && r.store.nextId == s.nextId
    ensures forall i :: 0 <= i < |s.queue| ==> r.store.queue[i].(processed := s.queue[i].processed) == s.queue[i]
    ensures forall i :: 0 <= i < |s.queue| ==>
              r.store.queue[i].processed == (s.queue[i].processed || (r.committed && s.queue[i].id == t.id))
    ensures WellFormed(s) ==> WellFormed(r.store)
  {
    var profit := CalculateProfit(t);
    if fault == BeginFails then TradeResult(s, false)
    else
      var upserted := s.(stats := UpdateAccountStats(s.stats, t.account, profit));
      if fault == UpsertFails then TradeResult(s, false)
      else
        var marked := upserted.(queue := MarkTradeAsProcessed(upserted.queue, t.id));
        if fault == MarkFails || fault == CommitFails then TradeResult(s, false)
        else
          assert fault.NoFault?;
          TradeResult(marked, true)
  }

  /** The queue a transaction leaves behind is the queue before it, or that queue with the trade's row marked. */
  lemma CommittedQueueIsMarked(s: Store, t: Trade, fault: TxFault)
    ensures var r := ProcessTrade(s, t, fault);
            r.store.queue == if r.committed then MarkTradeAsProcessed(s.queue, t.id) else s.queue
  {
  }

  /** The store a committed transaction leaves for the unprocessed row at `i`. */
  function Booked(s: Store, i: nat): Store
    requires i < |s.queue|
  {
    Store(MarkTradeAsProcessed(s.queue, s.queue[i].id),
          UpdateAccountStats(s.stats, s.queue[i].account, RowProfit(s.queue[i])),
          s.nextId)
  }

  lemma BookingPreservesConservation(s: Store, i: nat)
    requires IdsIncreasing(s.queue) && Conserved(s)
    requires i < |s.queue| && !s.queue[i].processed
    ensures Conserved(Booked(s, i))
  {
    forall a
      ensures Lookup(Booked(s, i).stats, a) == Totals(ProcessedCount(Booked(s, i).queue, a), ProcessedProfit(Booked(s, i).queue, a))
    {
      MarkPendingRow(s.queue, i, a);
    }
  }

  /** Booking a trade read from an unprocessed row keeps the statistics equal to the processed rows. */
  lemma ProcessTradePreservesConservation(s: Store, t: Trade, fault: TxFault)
    requires WellFormed(s) && Conserved(s)
    requires IsPendingRow(s.queue, t)
    ensures Conserved(ProcessTrade(s, t, fault).store)
  {
    if fault == NoFault {
      var i :| 0 <= i < |s.queue| && !s.queue[i].processed && TradeOf(s.queue[i]) == t;
      assert ProcessTrade(s, t, fault).store == Booked(s, i);
      BookingPreservesConservation(s, i);
    }
  }

  /**
   * The transaction neither checks that a row was updated nor re-reads the
   * flag: booking a trade whose row is already processed counts it twice.
   */
  lemma ReprocessingBreaksConservation(s: Store, i: nat)
    requires WellFormed(s) && Conserved(s)
    requires i < |s.queue| && s.queue[i].processed
    ensures !Conserved(ProcessTrade(s, TradeOf(s.queue[i]), NoFault).store)
  {
    var t := TradeOf(s.queue[i]);
    var r := ProcessTrade(s, t, NoFault).store;
    forall j | 0 <= j < |s.queue|
      ensures r.queue[j] == s.queue[j]
    {
      assert j != i ==> s.queue[j].id != t.id;
    }
    assert r.queue == s.queue;
    assert Lookup(s.stats, t.account).trades == ProcessedCount(s.queue, t.account);
  }

  /** Likewise a trade with no row at all is counted although no row is processed. */
  lemma MissingRowBreaksConservation(s: Store, t: Trade)
    requires Conserved(s)
    requires forall j :: 0 <= j < |s.queue| ==> s.queue[j].id != t.id
    ensures !Conserved(ProcessTrade(s, t, NoFault).store)
  {
    var r := ProcessTrade(s, t, NoFault).store;
    MarkMissingIdIsNoOp(s.queue, t.id);
    assert r.queue == s.queue;
    assert Lookup(s.stats, t.account).trades == ProcessedCount(s.queue, t.account);
  }

  /** A step on one trade does not disturb the unprocessed row of a trade with another id. */
  lemma StepKeepsOthersPending(s: Store, t: Trade, fault: TxFault, u: Trade)
    requires IsPendingRow(s.queue, u) && u.id != t.id
    ensures IsPendingRow(ProcessTrade(s, t, fault).store.queue, u)
  {
    var q' := ProcessTrade(s, t, fault).store.queue;
    var j :| 0 <= j < |s.queue| && !s.queue[j].processed && TradeOf(s.queue[j]) == u;
    assert q'[j].(processed := s.queue[j].processed) == s.queue[j];
    assert q'[j] == s.queue[j];
  }

  /**
   * A step on the first trade of a pending batch keeps the store conserved
   * and the rest of the batch pending.
   */
  lemma StepKeepsBatchPending(s: Store, ts: seq<Trade>, i: nat, fault: TxFault)
    requires i < |ts| && DistinctIds(ts)
    requires WellFormed(s) && Conserved(s)
    requires forall k :: i <= k < |ts| ==> IsPendingRow(s.queue, ts[k])
    ensures var s' := ProcessTrade(s, ts[i], fault).store;
            && WellFormed(s') && Conserved(s')
            && forall k :: i + 1 <= k < |ts| ==> IsPendingRow(s'.queue, ts[k])
  {
    ProcessTradePreservesConservation(s, ts[i], fault);
    StepKeepsRestPending(s, ts, i, fault);
  }

  /** A step on one trade of a batch leaves the rest of the batch pending. */
  lemma StepKeepsRestPending(s: Store, ts: seq<Trade>, i: nat, fault: TxFault)
    requires i < |ts| && DistinctIds(ts)
    requires forall k :: i + 1 <= k < |ts| ==> IsPendingRow(s.queue, ts[k])
    ensures forall k :: i + 1 <= k < |ts| ==> IsPendingRow(ProcessTrade(s, ts[i], fault).store.queue, ts[k])
  {
    forall k | i + 1 <= k < |ts|
      ensures IsPendingRow(ProcessTrade(s, ts[i], fault).store.queue, ts[k])
    {
      StepKeepsOthersPending(s, ts[i], fault, ts[k]);
    }
  }

  // ---------------------------------------------------------------------
  // processBatch
  // ---------------------------------------------------------------------

  /**
   * Process `ts[i..]` one trade at a time, consulting the cancellation
   * oracle before each; a failed trade is skipped, not fatal.
   */
  function ProcessFrom(s: Store, ts: seq<Trade>, i: nat, cancel: nat -> bool, fault: nat -> TxFault): (r: Store)
    requires i <= |ts|
    ensures |r.queue| == |s.queue| && r.nextId == s.nextId
    // flags are only ever raised, and only on rows of trades in the batch
    ensures forall j :: 0 <= j < |s.queue| ==> r.queue[j].(processed := s.queue[j].processed) == s.queue[j]
    ensures forall j :: 0 <= j < |s.queue| && s.queue[j].processed ==> r.queue[j].processed
    ensures forall j :: 0 <= j < |s.queue| && (forall k :: i <= k < |ts| ==> ts[k].id != s.queue[j].id)
                        ==> r.queue[j] == s.queue[j]
    ensures WellFormed(s) ==> WellFormed(r)
    decreases |ts| - i
  {
    if i == |ts| || cancel(i) then s
    else ProcessFrom(ProcessTrade(s, ts[i], fault(i)).store, ts, i + 1, cancel, fault)
  }

  datatype BatchResult = BatchResult(store: Store, more: bool)

  /**
   * One batch, given what the fetch returned. `more` is the value the loop
   * reads: true whenever the fetch produced at least one trade, even if
   * every trade failed or cancellation cut the batch short.
   */
  function ProcessBatch(s: Store, fetched: Option<seq<Trade>>, cancel: nat -> bool, fault: nat -> TxFault)
    : (r: BatchResult)
    ensures r.more <==> fetched.Some? && |fetched.value| > 0
    ensures !r.more ==> r.store == s
    ensures |r.store.queue| == |s.queue| && r.store.nextId == s.nextId
    ensures WellFormed(s) ==> WellFormed(r.store)
  {
    match fetched
    case None => BatchResult(s, false)
    case Some(ts) =>
      if |ts| == 0 then BatchResult(s, false)
      else BatchResult(ProcessFrom(s, ts, 0, cancel, fault), true)
  }

  lemma {:induction false} ProcessFromPreservesConservation(
    s: Store, ts: seq<Trade>, i: nat, cancel: nat -> bool, fault: nat -> TxFault)
    requires i <= |ts|
    requires WellFormed(s) && Conserved(s)
    requires DistinctIds(ts)
    requires forall k :: i <= k < |ts| ==> IsPendingRow(s.queue, ts[k])
    ensures Conserved(ProcessFrom(s, ts, i, cancel, fault))
    decreases |ts| - i
  {
    if i < |ts| && !cancel(i) {
      var s' := ProcessTrade(s, ts[i], fault(i)).store;
      StepKeepsBatchPending(s, ts, i, fault(i));
      ProcessFromPreservesConservation(s', ts, i + 1, cancel, fault);
      assert ProcessFrom(s, ts, i, cancel, fault) == ProcessFrom(s', ts, i + 1, cancel, fault);
    } else {
      assert ProcessFrom(s, ts, i, cancel, fault) == s;
    }
  }

  /** A batch of unprocessed rows keeps the statistics equal to the processed rows. */
  lemma BatchPreservesConservation(
    s: Store, fetched: Option<seq<Trade>>, cancel: nat -> bool, fault: nat -> TxFault)
    requires WellFormed(s) && Conserved(s)
    requires fetched.Some? ==> PendingBatch(s, fetched.value)
    ensures Conserved(ProcessBatch(s, fetched, cancel, fault).store)
  {
    if fetched.Some? && |fetched.value| > 0 {
      ProcessFromPreservesConservation(s, fetched.value, 0, cancel, fault);
    }
  }

  /** Once cancellation is observed at position `k`, nothing from `k` on is touched. */
  lemma {:induction false} CancellationCutsBatch(
    s: Store, ts: seq<Trade>, i: nat, k: nat, cancel: nat -> bool, fault: nat -> TxFault)
    requires i <= k < |ts| && cancel(k)
    ensures ProcessFrom(s, ts, i, cancel, fault) == ProcessFrom(s, ts[..k], i, cancel, fault)
    decreases k - i
  {
    if i < k && !cancel(i) {
      assert ts[..k][i] == ts[i];
      CancellationCutsBatch(ProcessTrade(s, ts[i], fault(i)).store, ts, i + 1, k, cancel, fault);
    }
  }

  /** ... so every trade from the cancellation point on is left unprocessed. */
  lemma CancelledTradesStayPending(
    s: Store, ts: seq<Trade>, k: nat, cancel: nat -> bool, fault: nat -> TxFault)
    requires PendingBatch(s, ts)
    requires k < |ts| && cancel(k)
    ensures forall m :: k <= m < |ts| ==> IsPendingRow(ProcessBatch(s, Some(ts), cancel, fault).store.queue, ts[m])
  {
    var r := ProcessBatch(s, Some(ts), cancel, fault).store;
    CancellationCutsBatch(s, ts, 0, k, cancel, fault);
    assert r == ProcessFrom(s, ts[..k], 0, cancel, fault);
    forall m | k <= m < |ts|
      ensures IsPendingRow(r.queue, ts[m])
    {
      var j :| 0 <= j < |s.queue| && !s.queue[j].processed && TradeOf(s.queue[j]) == ts[m];
      assert forall l :: 0 <= l < |ts[..k]| ==> ts[..k][l].id != s.queue[j].id;
      assert r.queue[j] == s.queue[j];
    }
  }

  /** A failed trade is skipped: the batch carries on with the next one. */
  lemma FailureSkipsTrade(s: Store, ts: seq<Trade>, i: nat, cancel: nat -> bool, fault: nat -> TxFault)
    requires i < |ts| && !cancel(i) && fault(i) != NoFault
    ensures ProcessFrom(s, ts, i, cancel, fault) == ProcessFrom(s, ts, i + 1, cancel, fault)
  {
  }

  /** ... and its row is still unprocessed after the batch, ready for a later fetch. */
  lemma FailedTradeStaysPending(s: Store, ts: seq<Trade>, i: nat, cancel: nat -> bool, fault: nat -> TxFault)
    requires PendingBatch(s, ts)
    requires i < |ts| && fault(i) != NoFault
    ensures IsPendingRow(ProcessBatch(s, Some(ts), cancel, fault).store.queue, ts[i])
  {
    var r := ProcessBatch(s, Some(ts), cancel, fault).store;
    var j :| 0 <= j < |s.queue| && !s.queue[j].processed && TradeOf(s.queue[j]) == ts[i];
    assert r.queue[j] == s.queue[j] by {
      if cancel(i) || exists l :: 0 <= l < i && cancel(l) {
        var c := if cancel(i) then i else var l :| 0 <= l < i && cancel(l); l;
        CancellationCutsBatch(s, ts, 0, c, cancel, fault);
        FrameUpTo(s, ts, 0, c, cancel, fault, j);
      } else {
        FailedStepFrame(s, ts, 0, i, cancel, fault, j);
      }
    }
  }

  /** Processing only `ts[..c]` leaves a row alone whose id lies outside that prefix. */
  lemma FrameUpTo(s: Store, ts: seq<Trade>, i: nat, c: nat, cancel: nat -> bool, fault: nat -> TxFault, j: nat)
    requires i <= c <= |ts| && j < |s.queue|
    requires DistinctIds(ts)
    requires exists m :: c <= m < |ts| && ts[m].id == s.queue[j].id
    ensures ProcessFrom(s, ts[..c], i, cancel, fault).queue[j] == s.queue[j]
  {
    var m :| c <= m < |ts| && ts[m].id == s.queue[j].id;
    assert forall l :: i <= l < |ts[..c]| ==> ts[..c][l].id != s.queue[j].id by {
      forall l | i <= l < |ts[..c]|
        ensures ts[..c][l].id != s.queue[j].id
      {
        assert ts[..c][l] == ts[l];
      }
    }
  }

  /**
   * Nothing cancels up to position `i` and trade `i` fails: the row of
   * trade `i` survives the whole pass unchanged.
   */
  lemma {:induction false} FailedStepFrame(
    s: Store, ts: seq<Trade>, i: nat, f: nat, cancel: nat -> bool, fault: nat -> TxFault, j: nat)
    requires i <= f < |ts| && j < |s.queue|
    requires DistinctIds(ts) && ts[f].id == s.queue[j].id
    requires forall l :: i <= l <= f ==> !cancel(l)
    requires fault(f) != NoFault
    ensures ProcessFrom(s, ts, i, cancel, fault).queue[j] == s.queue[j]
    decreases f - i
  {
    var s' := ProcessTrade(s, ts[i], fault(i)).store;
    if i < f {
      assert s'.queue[j] == s.queue[j] by {
        assert ts[i].id != ts[f].id;
        assert s'.queue[j].(processed := s.queue[j].processed) == s.queue[j];
      }
      FailedStepFrame(s', ts, i + 1, f, cancel, fault, j);
    } else {
      assert s' == s;
      assert forall k :: i + 1 <= k < |ts| ==> ts[k].id != s.queue[j].id;
    }
  }

  // ---------------------------------------------------------------------
  // How many rows a batch processes
  // ---------------------------------------------------------------------

  lemma StepRaisesAtMostOne(s: Store, t: Trade, fault: TxFault)
    requires IdsIncreasing(s.queue)
    ensures DoneCount(ProcessTrade(s, t, fault).store.queue) <= DoneCount(s.queue) + 1
  {
    CommittedQueueIsMarked(s, t, fault);
    MarkRaisesAtMostOne(s.queue, t.id);
  }

  lemma {:induction false} ProcessFromRaisesAtMost(
    s: Store, ts: seq<Trade>, i: nat, cancel: nat -> bool, fault: nat -> TxFault)
    requires i <= |ts| && WellFormed(s)
    ensures DoneCount(ProcessFrom(s, ts, i, cancel, fault).queue) <= DoneCount(s.queue) + (|ts| - i)
    decreases |ts| - i
  {
    if i < |ts| && !cancel(i) {
      var r := ProcessTrade(s, ts[i], fault(i));
      StepRaisesAtMostOne(s, ts[i], fault(i));
      ProcessFromRaisesAtMost(r.store, ts, i + 1, cancel, fault);
    }
  }

  /** One batch fetched with a non-negative limit processes at most that many rows. */
  lemma BatchRaisesAtMostLimit(
    s: Store, limit: int, fetched: Option<seq<Trade>>, cancel: nat -> bool, fault: nat -> TxFault)
    requires WellFormed(s) && 0 <= limit
    requires fetched.Some? ==> IsFetchResult(s, limit, fetched.value)
    ensures DoneCount(ProcessBatch(s, fetched, cancel, fault).store.queue) <= DoneCount(s.queue) + limit
  {
    if fetched.Some? && |fetched.value| > 0 {
      ProcessFromRaisesAtMost(s, fetched.value, 0, cancel, fault);
    }
  }

  /** With no cancellation and no fault, every trade of a pending batch gets processed. */
  lemma {:induction false} QuietPassProcessesAll(
    s: Store, ts: seq<Trade>, i: nat, cancel: nat -> bool, fault: nat -> TxFault)
    requires i <= |ts| && WellFormed(s)
    requires DistinctIds(ts) && forall k :: i <= k < |ts| ==> IsPendingRow(s.queue, ts[k])
    requires forall k :: i <= k < |ts| ==> !cancel(k) && fault(k) == NoFault
    ensures DoneCount(ProcessFrom(s, ts, i, cancel, fault).queue) == DoneCount(s.queue) + (|ts| - i)
    decreases |ts| - i
  {
    if i < |ts| {
      var s' := ProcessTrade(s, ts[i], fault(i)).store;
      var j :| 0 <= j < |s.queue| && !s.queue[j].processed && TradeOf(s.queue[j]) == ts[i];
      assert s'.queue == MarkTradeAsProcessed(s.queue, s.queue[j].id);
      MarkPendingRow(s.queue, j, ts[i].account);
      StepKeepsRestPending(s, ts, i, fault(i));
      QuietPassProcessesAll(s', ts, i + 1, cancel, fault);
    }
  }

  // ---------------------------------------------------------------------
  // Start: the polling loop
  // ---------------------------------------------------------------------

  /**
   * What one iteration of the loop observes: whether the context is done,
   * what the query for unprocessed trades returns (`fetch(s, limit)`, with
   * `None` for a failed query), and the cancellation and fault oracles for
   * the positions of the batch.
   */
  datatype Poll = Poll(done: bool, fetch: (Store, int) -> Option<seq<Trade>>,
                       cancel: nat -> bool, fault: nat -> TxFault)

  /**
   * The query answers as the SQL of `GetUnprocessedTrades` may: on a
   * well-formed store, any successful answer is an admissible selection of
   * unprocessed rows in whatever order the timestamp ties fall.
   */
  ghost predicate AdmissibleFetch(p: Poll)
  {
    forall s, limit :: WellFormed(s) && p.fetch(s, limit).Some? ==> IsFetchResult(s, limit, p.fetch(s, limit).value)
  }

  /** The query answered by `GetUnprocessedTrades`: queue order, never failing. */
  function QueueOrderFetch(s: Store, limit: int): Option<seq<Trade>>
  {
    GetUnprocessedTrades(s, limit, false)
  }

  /** After an iteration the loop returns, waits a poll interval, or polls again at once. */
  datatype Next = Stop | Wait | Repoll

  datatype StepResult = StepResult(store: Store, next: Next)

  /** One iteration of the loop: check the context, fetch up to `batchSize` trades, run the batch. */
  function WorkerStep(s: Store, batchSize: int, p: Poll): (r: StepResult)
    ensures r.next == Stop <==> p.done
    // the loop polls again at once exactly when it fetched something
    ensures r.next == Repoll <==> !p.done && p.fetch(s, batchSize).Some? && |p.fetch(s, batchSize).value| > 0
    ensures AdmissibleFetch(p) && WellFormed(s) ==>
              (r.next == Repoll <==> !p.done && p.fetch(s, batchSize).Some? && PendingCount(s.queue) > 0 && batchSize != 0)
    ensures r.next != Repoll ==> r.store == s
    ensures SameRowsUpToFlags(s.queue, r.store.queue) && r.store.nextId == s.nextId
    ensures WellFormed(s) ==> WellFormed(r.store)
  {
    if p.done then StepResult(s, Stop)
    else
      var b := ProcessBatch(s, p.fetch(s, batchSize), p.cancel, p.fault);
      StepResult(b.store, if b.more then Repoll else Wait)
  }

  lemma StepPreservesConservation(s: Store, batchSize: int, p: Poll)
    requires WellFormed(s) && Conserved(s) && AdmissibleFetch(p)
    ensures Conserved(WorkerStep(s, batchSize, p).store)
  {
    if !p.done {
      var fetched := p.fetch(s, batchSize);
      BatchPreservesConservation(s, fetched, p.cancel, p.fault);
    }
  }

  /** The loop run for as many iterations as there are observations, or until the context is done. */
  function Run(s: Store, batchSize: int, polls: seq<Poll>): (r: Store)
    ensures SameRowsUpToFlags(s.queue, r.queue) && r.nextId == s.nextId
    ensures WellFormed(s) ==> WellFormed(r)
    decreases |polls|
  {
    if |polls| == 0 then s
    else
      var step := WorkerStep(s, batchSize, polls[0]);
      if step.next == Stop then step.store
      else Run(step.store, batchSize, polls[1..])
  }

  lemma {:induction false} RunPreservesConservation(s: Store, batchSize: int, polls: seq<Poll>)
    requires WellFormed(s) && Conserved(s)
    requires forall n :: 0 <= n < |polls| ==> AdmissibleFetch(polls[n])
    ensures Conserved(Run(s, batchSize, polls))
    decreases |polls|
  {
    if |polls| > 0 {
      var step := WorkerStep(s, batchSize, polls[0]);
      StepPreservesConservation(s, batchSize, polls[0]);
      if step.next != Stop {
        RunPreservesConservation(step.store, batchSize, polls[1..]);
      }
    }
  }

  /** An iteration in which nothing fails and nothing is cancelled. */
  ghost predicate Quiet(p: Poll)
  {
    && !p.done
    && (forall s, limit :: p.fetch(s, limit).Some?)
    && forall k :: !p.cancel(k) && p.fault(k) == NoFault
  }

  /** A run of quiet iterations, each fetching admissibly. */
  ghost predicate QuietPolls(polls: seq<Poll>)
  {
    forall n :: 0 <= n < |polls| ==> Quiet(polls[n]) && AdmissibleFetch(polls[n])
  }

  /** The queue-order query with no cancellation and no fault: such an iteration exists. */
  lemma QueueOrderPollIsQuiet()
    ensures var p := Poll(false, QueueOrderFetch, k => false, k => NoFault);
            AdmissibleFetch(p) && Quiet(p)
  {
  }

  /** A quiet iteration with work to do processes at least one row, whatever order the fetch picks. */
  lemma QuietStepProgresses(s: Store, batchSize: int, p: Poll)
    requires WellFormed(s) && Quiet(p) && AdmissibleFetch(p) && batchSize != 0
    ensures PendingCount(s.queue) > 0 ==> PendingCount(WorkerStep(s, batchSize, p).store.queue) < PendingCount(s.queue)
    ensures PendingCount(s.queue) == 0 ==> WorkerStep(s, batchSize, p).store == s
  {
    var fetched := p.fetch(s, batchSize);
    assert fetched.Some?;
    if PendingCount(s.queue) > 0 {
      var ts := fetched.value;
      var r := WorkerStep(s, batchSize, p).store;
      assert r == ProcessFrom(s, ts, 0, p.cancel, p.fault);
      QuietPassProcessesAll(s, ts, 0, p.cancel, p.fault);
      CountsAddUp(s.queue);
      CountsAddUp(r.queue);
    }
  }

  /** Enough quiet iterations drain the queue: every row ends up processed. */
  lemma {:induction false} QuietRunDrains(s: Store, batchSize: int, polls: seq<Poll>)
    requires WellFormed(s) && batchSize != 0
    requires |polls| >= PendingCount(s.queue)
    requires QuietPolls(polls)
    ensures PendingCount(Run(s, batchSize, polls).queue) == 0
    decreases |polls|
  {
    if |polls| > 0 {
      var step := WorkerStep(s, batchSize, polls[0]);
      QuietStepProgresses(s, batchSize, polls[0]);
      QuietRunDrains(step.store, batchSize, polls[1..]);
    }
  }

  /**
   * After a drain every account reads back the count and the profit sum of
   * all its rows: each accepted trade is counted exactly once.
   */
  lemma DrainReportsEveryRow(s: Store, batchSize: int, polls: seq<Poll>, account: string)
    requires WellFormed(s) && Conserved(s) && batchSize != 0
    requires |polls| >= PendingCount(s.queue)
    requires QuietPolls(polls)
    ensures GetAccountStats(Run(s, batchSize, polls), account, false)
            == Some(Stats(account, AccountRows(s.queue, account), AccountProfit(s.queue, account)))
  {
    var r := Run(s, batchSize, polls);
    RunPreservesConservation(s, batchSize, polls);
    QuietRunDrains(s, batchSize, polls);
    ReadReportsProcessedRows(r, account);
    DrainedTotals(r.queue, account);
    FlagsDoNotMoveAccountTotals(s.queue, r.queue, account);
  }
}
